=== FILE: README.md ===
# BCAPI client core, modelled in Dafny

This project models the protocol core of the `rajant_api` Python package. That
package is a client for the BCAPI protocol, which Breadcrumb radios speak over
TLS. The core has two parts.

- **The packet framer.** A frame is an 8-byte header followed by a payload. The
  header is struct format `'>ibbbb'`: a big-endian signed 32-bit payload
  length, a flag byte (2 means compressed, 0 means not) and three zero bytes.
  There are two copies of the framer:
  - `rajant_api/helper_functions.py` is the hardened copy. It checks the
    argument type, the input length and the flag, and it uses the zlib
    container (RFC 1950).
  - `rajant_api/__init__.py` is the legacy copy, and it is the one the session
    uses. It checks nothing beyond what `struct.unpack` does, and it uses raw
    DEFLATE (RFC 1951) on Python 3.11. On earlier versions its compressed
    path raises TypeError (see "Left out").
- **The `Breadcrumb` session.** A session holds a sequence counter, an
  `authenticated` flag, the device serial, its settings and the connection.
  Its methods build, send and receive messages, run the challenge/response
  login and fetch the device state.

How the model is built:

- Bytes are `seq<byte>`, where `byte` is a newtype over 0..255.
- Python exceptions become `Result` failures that carry an error kind.
- The session is an immutable record. Each method is a function from the
  session and its peer to an `Outcome`: the session afterwards, the peer
  afterwards, and what the method returned or raised.
- The peer is a script. Connects, sends and receives each take the next answer
  from their own tape. The peer also logs every frame the session wrote and
  every message it read and parsed.
- Reachability (`ping`) is a boolean supplied to each call.
- The session's collaborators are fields of an `Env` record: the compressor
  pair, protobuf serialisation, SHA-384 (FIPS 180-4) and the schema's
  name/code tables.
- The round trip needs `decompress(compress(x)) == x`. This is the predicate
  `Compression.Inverts`, and it is a precondition of the round-trip lemmas.

Modules: `Wrappers` (Option, Result), `Bytes` (struct codes `'>i'` and `'b'`),
`Latin1`, `Header` (format `'>ibbbb'`), `Compression` and `Frame` (shared by
both framers), `HelperFunctions`, `LegacyFramer`, `Message` (the `BCMessage`
fields the core uses), `Breadcrumb` (the session) and `SessionRun` (call
sequences and end-to-end handshakes).

Behaviours of the code that the model reproduces:

- The hardened framer compresses with the zlib container and the legacy framer
  with raw DEFLATE. Their compressed frames therefore differ in general, and
  the legacy copy cannot in general decode the hardened copy's compressed
  frames. The lemmas that compare the two copies take one codec for each.
- The reserved header bytes and the length field are never checked on decode.
- The legacy `unpack_data` also fails on inputs shorter than 8 bytes. The
  failure is `struct.error` from unpacking `packet[:8]`.
- A failed handshake leaves the flag as it was. If the flag was already true,
  it stays true.
- `get_state_filter` appends the whole argument as one element; see Findings.

## Model

| member | source | states |
|---|---|---|
| Bytes.DecodeEncodeInt32 | rajant_api/helper_functions.py:48 | every length `'>i'` can pack is read back unchanged |
| Bytes.EncodeDecodeInt32 | rajant_api/helper_functions.py:65 | four header bytes are exactly the packing of the length they unpack to |
| Header.UnpackPack | rajant_api/helper_functions.py:48 | `unpack('>ibbbb')` of a packed header gives back the five values |
| Header.PackUnpack | rajant_api/helper_functions.py:65 | any 8 bytes repack to themselves after `unpack('>ibbbb')` |
| Latin1.EncodeDecode | rajant_api/__init__.py:302-303 | Latin-1 decoding then encoding the challenge gives back its bytes, whatever they are |
| Latin1.PasswordThenChallenge | rajant_api/__init__.py:302-303 | the hashed string encodes to the password's Latin-1 bytes followed by the challenge; it fails exactly when the password has a code point above 0xFF |
| Frame.Assemble | rajant_api/helper_functions.py:48-50 | header plus payload: 8 + n bytes, big-endian length n, the flag at offset 4, three zero bytes, then the payload; fails (struct.error) exactly when n does not fit in 32 signed bits |
| HelperFunctions.PackData | rajant_api/helper_functions.py:37-50 | rejects non-bytes; plain frames hold the data unchanged after the header, compressed frames hold the compressor's output with flag 2; the header length is the stored payload's; fails on a compressor failure or an oversize payload |
| HelperFunctions.UnpackData | rajant_api/helper_functions.py:53-79 | rejects non-bytes and inputs under 8 bytes; flag byte 0 yields `packet[8:]`, 2 yields the decompressed rest or an error, any other byte raises UnknownFlag with its signed value |
| HelperFunctions.RoundTrip | tests/test_helper_functions.py:84-92 | unpacking any frame that packing built returns the original data, with and without compression |
| HelperFunctions.IgnoresLengthAndReserved | rajant_api/helper_functions.py:65-79 | two frames that agree on byte 4 and on the bytes after the header unpack alike; the length field and reserved bytes are never checked |
| HelperFunctions.AcceptedFrames | rajant_api/helper_functions.py:57-77 | unpacking succeeds only on bytes of length at least 8 whose flag byte is 0 or 2 |
| LegacyFramer.PackData | rajant_api/__init__.py:75-79 | same layout as the hardened copy, with the legacy compressor (raw DEFLATE on Python 3.11); a compressor failure, which is every compressed call before 3.11, fails with CompressFailed |
| LegacyFramer.UnpackData | rajant_api/__init__.py:38-42 | fails on under 8 bytes (struct.error); flag byte 2 decompresses the rest; every other flag returns `packet[8:]` |
| LegacyFramer.SameFrames | rajant_api/__init__.py:75-79 | with each copy's own compressor: uncompressed, the two `pack_data` copies build identical frames from the same `bytes` (and fail alike); compressed, each frame is its own compressor's output under flag 2 and zero reserved bytes, and the two frames are equal exactly when the two compressors' outputs are |
| LegacyFramer.AcceptsWhatHardenedAccepts | rajant_api/__init__.py:38-42 | on a frame the hardened copy decodes: with flag 0 the legacy copy returns the same data; with flag 2 it returns what its raw DEFLATE decompressor gives, which equals the hardened result whenever the two decompressors agree on the payload |
| LegacyFramer.UnknownFlagsPassThrough | rajant_api/__init__.py:40-42 | a flag other than 0 and 2 is read as plain by the legacy copy and rejected by the hardened one, whatever the codecs |
| LegacyFramer.RoundTrip | rajant_api/__init__.py:38-79 | unpacking any frame that packing built returns the original data |
| Breadcrumb.Init | rajant_api/__init__.py:176-198 | a new session holds the host, port, role and password it was given, has no connection and no serial, counter 0, and is not authenticated |
| Breadcrumb.GetMessage | rajant_api/__init__.py:227-230 | the result is the parsed, unpacked first scripted frame; only on success does the counter rise by one and the read message get logged; with no connection it fails without I/O |
| Breadcrumb.BuildMessage | rajant_api/__init__.py:242-244 | the message carries the current counter and every other field at its default |
| Breadcrumb.SendMessage | rajant_api/__init__.py:262-264 | succeeds exactly when packing works, the socket is connected and the send succeeds; only then does the counter rise by one and the written frame get logged |
| Breadcrumb.SetupConnection | rajant_api/__init__.py:266-280 | the session is connected exactly when the connect succeeds; the old connection is replaced either way; counter, serial, flag and settings are untouched, and nothing is written or read |
| Breadcrumb.PrepareLoginMessage | rajant_api/__init__.py:298-307 | succeeds exactly when LOGIN and the role are known and the password is Latin-1; the message then has the counter, LOGIN, the role's code, SHA-384 over the password's bytes followed by the challenge, and compression mask 2 |
| Breadcrumb.Authenticate | rajant_api/__init__.py:322-339 | unreachable: no I/O, nothing changes; the return value is always the flag afterwards; the flag ends true exactly when it was true or the third exchange read a result whose status names SUCCESS; the counter rises by the exchanges completed; the serial comes from the first message |
| Breadcrumb.GetState | rajant_api/__init__.py:355-365 | without reachability and authentication: no I/O, result False; a state comes back exactly when the request was written and a reply read, and it is the reply's state; every failure becomes False |
| Breadcrumb.GetStateFilter | rajant_api/__init__.py:388-399 | as written: a list argument raises TypeError before any I/O, a string becomes a one-element filter path; with a string, the reply's state comes back exactly when the request was written and a reply read, and every failure after the guard is raised, not swallowed |
| Breadcrumb.GetStateFiltered | rajant_api/__init__.py:388-399 | corrected: the request's filter path is the given list; the call raises exactly when the guard passed and the exchange did not complete |
| SessionRun.Step | rajant_api/__init__.py:213-399 | every public call (`authenticate`, `get_state`, `get_state_filter` as written and with the list as the path, `send_message`, `get_message`, `setup_connection_socket`) keeps the counter equal to the exchanges completed, never clears the flag, keeps the settings and keeps the invariant |
| SessionRun.RunTracks | rajant_api/__init__.py:227-264 | over any call sequence the counter rises by exactly the number of frames written and messages read, and the log only grows |
| SessionRun.RunKeepsAuthenticated | rajant_api/__init__.py:329-337 | once authenticated, no sequence of calls makes the session unauthenticated |
| SessionRun.RunKeepsSettings | rajant_api/__init__.py:188-191 | host, port, role and password never change |
| SessionRun.RunKeepsInvariant | rajant_api/__init__.py:326-332 | an authenticated session has always recorded a serial |
| SessionRun.AuthenticatedOnlyAfterSuccess | rajant_api/__init__.py:329-333 | a session becomes authenticated during a run only if it read a result whose status names SUCCESS |
| SessionRun.InitSatisfiesInvariant | rajant_api/__init__.py:188-198 | a new session is inert (not connected, counter 0, not authenticated) and satisfies the invariant; every run from it keeps the host, port, role and password it was given |
| SessionRun.FreshHandshake | rajant_api/__init__.py:322-337 | from a new session against a peer that accepts, sends a challenge and replies: serial from the first message, the exact login frame with sequence number 1 and the SHA-384 response, counter 3, authenticated exactly when the reply's status names SUCCESS |
| SessionRun.StaleFlag | rajant_api/__init__.py:325-365 | after a handshake, a re-authentication whose TCP connect fails still returns true while disconnected, and `get_state` then returns False without writing |
| SessionRun.QueryPolicies | rajant_api/__init__.py:355-399 | with no filters, `get_state` and the corrected filter query cause the same traffic and counter change and return the same state, but `get_state` swallows the failures the corrected query raises; the filter query as written raises TypeError on the empty list and sends nothing |
| SessionRun.FilterListRefused | rajant_api/__init__.py:392 | with a working session and peer, the as-written filter query raises TypeError on a list and sends nothing, while the corrected query completes |

## Left out

- TLS and socket setup (rajant_api/__init__.py:277-280). A connect is one scripted answer: the socket is connected or not. The 2-second timeout and the missing certificate validation are not modelled.
- SessionRun.StaleFlag: covers a connect that fails at the TCP level only. When the TCP connect succeeds and the TLS handshake then fails, Python's `ssl` module leaves the socket connected without TLS, so a later `get_state` writes its request in plaintext and the counter rises. The model treats that connect as failed and not connected.
- The single `recv(65535)`. Each scripted receive answer is exactly what one read returns. A frame split across reads, or longer than 65535 bytes, is not modelled.
- A send either writes the whole frame or fails. Partial writes by `send` are not modelled.
- `is_host_reachable` in both files. It runs a `ping` subprocess and is replaced by a boolean per call. Its ValueError for an invalid IPv4 host (hardened copy) and its TypeError for a missing host are not modelled.
- `is_valid_ipv4`. It wraps Python's `ipaddress`, whose rules are not part of this model.
- `get_gps` in both files. It parses and computes with floating point.
- The DEFLATE and zlib algorithms, SHA-384 and protobuf serialisation. These are opaque function parameters. Only the compressor pair's round trip is assumed, as a precondition.
- `BCMessage` fields other than the sequence number, `auth`, `authResult.status`, `state` and `stateFilterPath`.
- Breadcrumb.BuildMessage: does not model protobuf's range check when the counter is assigned to `sequenceNumber`. The field's width is set by the external schema, which is not part of this model.
- LegacyFramer.PackData: takes only `bytes`. What the legacy copy does with a `str` or `bytearray` argument is not modelled.
- LegacyFramer.PackData: the compressor is a parameter, so the Python version is not modelled. `compress(data, wbits=-15)` (rajant_api/__init__.py:76) needs Python 3.11, because `zlib.compress` has no `wbits` keyword before it. On the versions setup.py lists (3.6 to 3.8), `pack_data(data, gzip=True)` and `send_message(m, gzip=True)` always raise TypeError. In the model this is a codec whose `compress` always returns None, which gives CompressFailed. Decompression passes `-15` positionally (line 41) and works on every version. So those interpreters decode compressed frames that they can never build. `ssl.wrap_socket` (line 3) is gone from Python 3.12, so 3.11 is the only version on which the module imports and compresses.
- LegacyFramer.UnpackData: takes only `bytes`, for the same reason.
- rajant_api/rajant.py is a broken example script. setup.py and run_tests.py are packaging and test scaffolding.

## Findings

| source | as written | input that shows it | evidently intended | confidence | as-written member | corrected member |
|---|---|---|---|---|---|---|
| rajant_api/__init__.py:392 | `stateFilterPath.append(filters)` adds the whole argument as one element of a repeated string field, so protobuf raises TypeError for the documented list argument. The error is raised before any request is sent. | `get_state_filter(["gps"])` on an authenticated session | the list becomes the filter path, element by element (`extend`) | high; not executed | Breadcrumb.GetStateFilter, SessionRun.FilterListRefused | Breadcrumb.GetStateFiltered |

=== FILE: breadcrumb.dfy ===
/** The `Breadcrumb` session of rajant_api/__init__.py as a state machine.
    A session is an immutable record; every method is a function from the
    session and the peer at the other end of the socket to the session and
    peer afterwards plus what the method returned (or raised). The peer is a
    script: each connect, send and receive consumes the next answer on its own
    tape, and the peer logs every frame the session wrote and every message
    the session read. Reachability (`ping`) is a boolean answered per call. */
module Breadcrumb {
  import opened Bytes
  import opened Wrappers
  import opened Message
  import Frame
  import Compression
  import LegacyFramer
  import Latin1

  /** The collaborators the session calls but does not define: the codec of
      the legacy framer (raw DEFLATE on Python 3.11; on earlier versions its
      compressor always fails), protobuf serialisation, SHA-384 of
      FIPS 180-4, and the schema's name/code tables (`actions` and `roles`
      map names to codes, `statuses` maps codes to names). */
  datatype Env = Env(
    deflate: Compression.Codec,
    serialize: BCMessage -> seq<byte>,
    parse: seq<byte> -> Option<BCMessage>,
    sha384: seq<byte> -> seq<byte>,
    actions: map<string, int>,
    roles: map<string, int>,
    statuses: map<int, string>)

  /** The exceptions a method can raise, by cause. */
  datatype Fault =
    | NotConnected                      // `self.connection` is None or its connect failed
    | SocketError                       // send or recv raised (socket, TLS, timeout)
    | FrameFault(error: Frame.FrameError)  // pack_data or unpack_data raised
    | ParseError                        // ParseFromString raised
    | KeyError                          // unknown action name, role name or status code
    | TypeError                         // password None, or a value protobuf refuses
    | UnicodeError                      // the response string is not Latin-1 encodable

  /** The attributes of a `Breadcrumb`. `linked` says whether `connection`
      holds a socket whose connect succeeded. */
  datatype Session = Session(
    host: Option<string>,
    port: Option<int>,
    role: Option<string>,
    password: Option<string>,
    linked: bool,
    serial: Option<string>,
    counter: nat,
    authenticated: bool)

  /** One completed exchange: a frame written, or a message read and parsed. */
  datatype Exchange = Wrote(frame: seq<byte>) | Read(message: BCMessage)

  /** The scripted peer. An empty tape answers with a failure (a timeout). */
  datatype Peer = Peer(
    connects: seq<bool>,
    sends: seq<bool>,
    receives: seq<Option<seq<byte>>>,
    log: seq<Exchange>)

  /** A method's effect: the session and peer afterwards and its return value. */
  datatype Outcome<T> = Outcome(session: Session, peer: Peer, value: T)

  /** The action name of the login request. */
  const LOGIN: string := "LOGIN"
  /** The only status name that authenticates. */
  const SUCCESS: string := "SUCCESS"
  /** The compression capability bit the client advertises (`0 | 2`). */
  const COMPRESSION_MASK: int := 2

  /** The tape without its first answer. */
  function Drop<T>(tape: seq<T>): (rest: seq<T>)
    ensures |tape| > 0 ==> rest == tape[1..]
    ensures |tape| == 0 ==> rest == []
  {
    if |tape| == 0 then [] else tape[1..]
  }

  /** Host, port, role and password never change after construction. */
  predicate SameSettings(a: Session, b: Session) {
    a.host == b.host && a.port == b.port && a.role == b.role && a.password == b.password
  }

  /** The counter grew by exactly the number of exchanges the peer logged,
      and the log only grew. */
  predicate Tracks(s: Session, p: Peer, s': Session, p': Peer) {
    |p.log| <= |p'.log| && p'.log[..|p.log|] == p.log && s'.counter == s.counter + (|p'.log| - |p.log|)
  }

  /** `Breadcrumb(host=, port=, role=, password=)`: no I/O; no connection,
      no serial, counter 0, not authenticated. */
  function Init(host: Option<string>, port: Option<int>, role: Option<string>, password: Option<string>): (s: Session)
    ensures s.counter == 0 && !s.authenticated && !s.linked && s.serial.None?
    ensures s.host == host && s.port == port && s.role == role && s.password == password
  {
    Session(host, port, role, password, false, None, 0, false)
  }

  /** The frame `send_message(m, gzip)` hands to the socket. */
  function FrameOf(env: Env, m: BCMessage, gzip: bool): Result<seq<byte>, Frame.FrameError> {
    LegacyFramer.PackData(env.deflate, env.serialize(m), gzip)
  }

  /** `ParseFromString(unpack_data(frame))`. */
  function DecodeFrame(env: Env, frame: seq<byte>): Result<BCMessage, Fault> {
    match LegacyFramer.UnpackData(env.deflate, frame)
    case Failure(e) => Failure(FrameFault(e))
    case Success(payload) =>
      match env.parse(payload)
      case None => Failure(ParseError)
      case Some(m) => Success(m)
  }

  /** `get_message()`: one receive, decode and parse; the counter moves only
      once all three succeeded. */
  function GetMessage(env: Env, s: Session, p: Peer): (o: Outcome<Result<BCMessage, Fault>>)
    ensures !s.linked ==> o == Outcome(s, p, Failure(NotConnected))
    ensures o.value.Success? <==>
      s.linked && |p.receives| > 0 && p.receives[0].Some? && DecodeFrame(env, p.receives[0].value).Success?
    ensures o.value.Success? ==>
      && DecodeFrame(env, p.receives[0].value) == Success(o.value.value)
      && o.session == s.(counter := s.counter + 1)
      && o.peer.log == p.log + [Read(o.value.value)]
    ensures o.value.Failure? ==> o.session == s && o.peer.log == p.log
    ensures s.linked ==> o.peer.receives == Drop(p.receives)
    ensures o.peer.connects == p.connects && o.peer.sends == p.sends
  {
    if !s.linked then Outcome(s, p, Failure(NotConnected))
    else
      var rest := p.(receives := Drop(p.receives));
      var received := if |p.receives| == 0 then None else p.receives[0];
      match received
      case None => Outcome(s, rest, Failure(SocketError))
      case Some(raw) =>
        match DecodeFrame(env, raw)
        case Failure(f) => Outcome(s, rest, Failure(f))
        case Success(m) => Outcome(s.(counter := s.counter + 1), rest.(log := p.log + [Read(m)]), Success(m))
  }

  /** `build_message()`: a blank message stamped with the current counter;
      the session is not changed. */
  function BuildMessage(s: Session): (m: BCMessage)
    ensures m.sequenceNumber == s.counter
    ensures m.(sequenceNumber := Blank.sequenceNumber) == Blank
  {
    Blank.(sequenceNumber := s.counter)
  }

  /** `send_message(m, gzip)`: pack, then one send; the counter moves only
      once the send succeeded. */
  function SendMessage(env: Env, s: Session, p: Peer, m: BCMessage, gzip: bool): (o: Outcome<Result<(), Fault>>)
    ensures o.value.Success? <==> FrameOf(env, m, gzip).Success? && s.linked && |p.sends| > 0 && p.sends[0]
    ensures o.value.Success? ==>
      o.session == s.(counter := s.counter + 1) && o.peer.log == p.log + [Wrote(FrameOf(env, m, gzip).value)]
    ensures o.value.Failure? ==> o.session == s && o.peer.log == p.log
    ensures o.peer.sends == if FrameOf(env, m, gzip).Success? && s.linked then Drop(p.sends) else p.sends
    ensures o.peer.connects == p.connects && o.peer.receives == p.receives
  {
    match FrameOf(env, m, gzip)
    case Failure(e) => Outcome(s, p, Failure(FrameFault(e)))
    case Success(frame) =>
      if !s.linked then Outcome(s, p, Failure(NotConnected))
      else
        var rest := p.(sends := Drop(p.sends));
        if |p.sends| > 0 && p.sends[0] then
          Outcome(s.(counter := s.counter + 1), rest.(log := p.log + [Wrote(frame)]), Success(()))
        else Outcome(s, rest, Failure(SocketError))
  }

  /** `setup_connection_socket()`: the new socket replaces the old one
      whether or not its connect succeeds. */
  function SetupConnection(s: Session, p: Peer): (o: Outcome<bool>)
    ensures o.value <==> |p.connects| > 0 && p.connects[0]
    ensures o.session == s.(linked := o.value)
    ensures o.peer == p.(connects := Drop(p.connects))
  {
    var ok := |p.connects| > 0 && p.connects[0];
    Outcome(s.(linked := ok), p.(connects := Drop(p.connects)), ok)
  }

  /** `prepare_login_message(init)`: the LOGIN request answering the challenge
      in `init`. Raises KeyError for an unknown action or role name,
      TypeError for a missing password and UnicodeEncodeError for a password
      outside Latin-1. */
  function PrepareLoginMessage(env: Env, s: Session, init: BCMessage): (r: Result<BCMessage, Fault>)
    ensures r.Success? <==>
      LOGIN in env.actions && s.role.Some? && s.role.value in env.roles
      && s.password.Some? && Latin1.Encodable(s.password.value)
    ensures r.Failure? && (LOGIN !in env.actions || s.role.None? || s.role.value !in env.roles) ==>
      r.error == KeyError
    ensures r.Failure? && LOGIN in env.actions && s.role.Some? && s.role.value in env.roles && s.password.None? ==>
      r.error == TypeError
    ensures r.Failure? && LOGIN in env.actions && s.role.Some? && s.role.value in env.roles && s.password.Some? ==>
      r.error == UnicodeError
    ensures r.Success? ==>
      && r.value.sequenceNumber == s.counter
      && r.value.auth.action == env.actions[LOGIN]
      && r.value.auth.role == env.roles[s.role.value]
      && r.value.auth.challengeOrResponse ==
           env.sha384(Latin1.Encode(s.password.value).value + init.auth.challengeOrResponse)
      && r.value.auth.compressionMask == COMPRESSION_MASK
      && r.value.auth.serial == Blank.auth.serial
      && r.value.authResult == Blank.authResult
      && r.value.state == Blank.state
      && r.value.stateFilterPath == Blank.stateFilterPath
  {
    var tx := BuildMessage(s);
    if LOGIN !in env.actions then Failure(KeyError)
    else if s.role.None? || s.role.value !in env.roles then Failure(KeyError)
    else if s.password.None? then Failure(TypeError)
    else
      Latin1.PasswordThenChallenge(s.password.value, init.auth.challengeOrResponse);
      match Latin1.Encode(s.password.value + Latin1.Decode(init.auth.challengeOrResponse))
      case None => Failure(UnicodeError)
      case Some(response) =>
        Success(tx.(auth := tx.auth.(
          action := env.actions[LOGIN],
          role := env.roles[s.role.value],
          challengeOrResponse := env.sha384(response),
          compressionMask := COMPRESSION_MASK)))
  }

  /** Whether a result message's status code names SUCCESS. */
  predicate StatusSucceeds(env: Env, m: BCMessage) {
    m.authResult.status in env.statuses && env.statuses[m.authResult.status] == SUCCESS
  }

  /** The peer's part of a handshake that authenticates: exactly three
      exchanges, the last a result whose status code names SUCCESS. */
  predicate Accepted(env: Env, before: seq<Exchange>, after: seq<Exchange>) {
    && |after| == |before| + 3
    && after[|before| + 2].Read?
    && StatusSucceeds(env, after[|before| + 2].message)
  }

  /** `authenticate()`: connect, read the challenge, send the login request,
      read the result. Every failure is caught and the flag returned; the
      effects of the steps that did complete remain. */
  function Authenticate(env: Env, s: Session, p: Peer, reachable: bool): (o: Outcome<bool>)
    ensures !reachable ==> o == Outcome(s, p, s.authenticated)
    ensures o.value == o.session.authenticated
    ensures o.session.authenticated <==> s.authenticated || Accepted(env, p.log, o.peer.log)
    ensures Tracks(s, p, o.session, o.peer) && |o.peer.log| <= |p.log| + 3
    ensures SameSettings(s, o.session)
    ensures |o.peer.log| == |p.log| ==> o.session.serial == s.serial
    ensures |o.peer.log| > |p.log| ==>
      o.peer.log[|p.log|].Read? && o.session.serial == Some(o.peer.log[|p.log|].message.auth.serial)
  {
    if !reachable then Outcome(s, p, s.authenticated)
    else
      var connect := SetupConnection(s, p);
      if !connect.value then Outcome(connect.session, connect.peer, connect.session.authenticated)
      else
        var first := GetMessage(env, connect.session, connect.peer);
        match first.value
        case Failure(_) => Outcome(first.session, first.peer, first.session.authenticated)
        case Success(init) =>
          var s2 := first.session.(serial := Some(init.auth.serial));
          match PrepareLoginMessage(env, s2, init)
          case Failure(_) => Outcome(s2, first.peer, s2.authenticated)
          case Success(login) =>
            var sent := SendMessage(env, s2, first.peer, login, false);
            if sent.value.Failure? then Outcome(sent.session, sent.peer, sent.session.authenticated)
            else
              var reply := GetMessage(env, sent.session, sent.peer);
              match reply.value
              case Failure(_) => Outcome(reply.session, reply.peer, reply.session.authenticated)
              case Success(result) =>
                if StatusSucceeds(env, result) then
                  Outcome(reply.session.(authenticated := true), reply.peer, true)
                else
                  // an unknown code raises KeyError, a known one other than SUCCESS falls through
                  Outcome(reply.session, reply.peer, reply.session.authenticated)
  }

  /** The state request both query methods send: a blank message stamped
      with the counter, `state` cleared (present but empty), and the filter path. */
  function StateRequest(s: Session, path: seq<string>): (m: BCMessage)
    ensures m.sequenceNumber == s.counter
    ensures m.state == Some(EmptyState) && m.stateFilterPath == path
    ensures m.auth == Blank.auth && m.authResult == Blank.authResult
  {
    BuildMessage(s).(state := Some(EmptyState), stateFilterPath := path)
  }

  /** The request/response exchange common to both query methods. */
  function RequestState(env: Env, s: Session, p: Peer, path: seq<string>): (o: Outcome<Result<State, Fault>>)
    ensures o.value.Success? <==> |o.peer.log| == |p.log| + 2
    ensures o.value.Success? ==>
      && FrameOf(env, StateRequest(s, path), false).Success?
      && o.peer.log[|p.log|] == Wrote(FrameOf(env, StateRequest(s, path), false).value)
      && o.peer.log[|p.log| + 1].Read?
      && o.value.value == StateOf(o.peer.log[|p.log| + 1].message)
    ensures Tracks(s, p, o.session, o.peer)
    ensures o.session == s.(counter := o.session.counter)
  {
    var sent := SendMessage(env, s, p, StateRequest(s, path), false);
    if sent.value.Failure? then Outcome(sent.session, sent.peer, Failure(sent.value.error))
    else
      var reply := GetMessage(env, sent.session, sent.peer);
      match reply.value
      case Failure(f) => Outcome(reply.session, reply.peer, Failure(f))
      case Success(m) => Outcome(reply.session, reply.peer, Success(StateOf(m)))
  }

  /** `get_state()`: refused without I/O unless the host answers and the
      session is authenticated; any later failure becomes `False` (None). */
  function GetState(env: Env, s: Session, p: Peer, reachable: bool): (o: Outcome<Option<State>>)
    ensures !(reachable && s.authenticated) ==> o == Outcome(s, p, None)
    ensures o.value.Some? <==> reachable && s.authenticated && |o.peer.log| == |p.log| + 2
    ensures o.value.Some? ==>
      && FrameOf(env, StateRequest(s, []), false).Success?
      && o.peer.log[|p.log|] == Wrote(FrameOf(env, StateRequest(s, []), false).value)
      && o.peer.log[|p.log| + 1].Read?
      && o.value.value == StateOf(o.peer.log[|p.log| + 1].message)
    ensures Tracks(s, p, o.session, o.peer)
    ensures o.session == s.(counter := o.session.counter)
  {
    if !(reachable && s.authenticated) then Outcome(s, p, None)
    else
      var q := RequestState(env, s, p, []);
      match q.value
      case Failure(_) => Outcome(q.session, q.peer, None)
      case Success(st) => Outcome(q.session, q.peer, Some(st))
  }

  /** The argument of `get_state_filter`: a string, or a list of strings. */
  datatype FilterArg = Text(path: string) | Items(paths: seq<string>)

  /** `get_state_filter(filters)` as written: `stateFilterPath.append(filters)`
      adds a string as one path element and refuses a list with TypeError,
      before any I/O. Failures after the guard are raised, not swallowed. */
  function GetStateFilter(env: Env, s: Session, p: Peer, reachable: bool, filters: FilterArg): (o: Outcome<Result<Option<State>, Fault>>)
    ensures !(reachable && s.authenticated) ==> o == Outcome(s, p, Success(None))
    ensures reachable && s.authenticated && filters.Items? ==> o == Outcome(s, p, Failure(TypeError))
    ensures o.value == Success(None) <==> !(reachable && s.authenticated)
    ensures o.value.Failure? <==> reachable && s.authenticated && (filters.Items? || |o.peer.log| < |p.log| + 2)
    ensures o.value.Success? && o.value.value.Some? <==>
      reachable && s.authenticated && filters.Text? && |o.peer.log| == |p.log| + 2
    ensures o.value.Success? && o.value.value.Some? ==>
      && filters.Text?
      && |o.peer.log| == |p.log| + 2
      && FrameOf(env, StateRequest(s, [filters.path]), false).Success?
      && o.peer.log[|p.log|] == Wrote(FrameOf(env, StateRequest(s, [filters.path]), false).value)
      && o.peer.log[|p.log| + 1].Read?
      && o.value.value.value == StateOf(o.peer.log[|p.log| + 1].message)
    ensures Tracks(s, p, o.session, o.peer)
    ensures o.session == s.(counter := o.session.counter)
  {
    if !(reachable && s.authenticated) then Outcome(s, p, Success(None))
    else
      match filters
      case Items(_) => Outcome(s, p, Failure(TypeError))
      case Text(path) =>
        var q := RequestState(env, s, p, [path]);
        match q.value
        case Failure(f) => Outcome(q.session, q.peer, Failure(f))
        case Success(st) => Outcome(q.session, q.peer, Success(Some(st)))
  }

  /** `get_state_filter(filters)` as evidently intended: the list becomes the
      filter path (`extend`), element by element. */
  function GetStateFiltered(env: Env, s: Session, p: Peer, reachable: bool, filters: seq<string>): (o: Outcome<Result<Option<State>, Fault>>)
    ensures !(reachable && s.authenticated) ==> o == Outcome(s, p, Success(None))
    ensures o.value.Failure? <==> reachable && s.authenticated && |o.peer.log| < |p.log| + 2
    ensures o.value.Success? && o.value.value.Some? <==> reachable && s.authenticated && |o.peer.log| == |p.log| + 2
    ensures o.value.Success? && o.value.value.Some? ==>
      && FrameOf(env, StateRequest(s, filters), false).Success?
      && o.peer.log[|p.log|] == Wrote(FrameOf(env, StateRequest(s, filters), false).value)
      && o.peer.log[|p.log| + 1].Read?
      && o.value.value.value == StateOf(o.peer.log[|p.log| + 1].message)
    ensures Tracks(s, p, o.session, o.peer)
    ensures o.session == s.(counter := o.session.counter)
  {
    if !(reachable && s.authenticated) then Outcome(s, p, Success(None))
    else
      var q := RequestState(env, s, p, filters);
      match q.value
      case Failure(f) => Outcome(q.session, q.peer, Failure(f))
      case Success(st) => Outcome(q.session, q.peer, Success(Some(st)))
  }
}

=== FILE: bytes.dfy ===
/** Octets and the two integer codes of Python's `struct` module that the
    frame header uses: '>i' (big-endian signed 32-bit) and 'b' (signed 8-bit). */
module Bytes {

  /** One element of a Python `bytes` object. */
  newtype byte = b: int | 0 <= b < 256

  const INT32_MIN: int := -0x8000_0000
  /** The least value that no longer fits in a signed 32-bit field. */
  const INT32_LIMIT: int := 0x8000_0000
  const TWO_32: int := 0x1_0000_0000

  /** The values `struct.pack` accepts for code 'i'. */
  predicate InInt32(n: int) {
    INT32_MIN <= n < INT32_LIMIT
  }

  /** The values `struct.pack` accepts for code 'b'. */
  predicate InInt8(n: int) {
    -128 <= n < 128
  }

  /** The unsigned big-endian number held in four bytes. */
  function Unsigned32(b: seq<byte>): (u: int)
    requires |b| == 4
    ensures 0 <= u < TWO_32
  {
    ((b[0] as int * 0x100 + b[1] as int) * 0x100 + b[2] as int) * 0x100 + b[3] as int
  }

  /** Code '>i': two's complement, most significant byte first. */
  function EncodeInt32(n: int): (b: seq<byte>)
    requires InInt32(n)
    ensures |b| == 4
    ensures Unsigned32(b) == if n < 0 then n + TWO_32 else n
  {
    var u0 := if n < 0 then n + TWO_32 else n;
    var u1 := u0 / 0x100;
    var u2 := u1 / 0x100;
    var u3 := u2 / 0x100;
    [u3 as byte, (u2 % 0x100) as byte, (u1 % 0x100) as byte, (u0 % 0x100) as byte]
  }

  /** Reading code '>i' back. */
  function DecodeInt32(b: seq<byte>): (n: int)
    requires |b| == 4
    ensures InInt32(n)
    ensures n >= 0 <==> b[0] < 0x80
  {
    var u := Unsigned32(b);
    if u < INT32_LIMIT then u else u - TWO_32
  }

  /** Code 'b': one byte, two's complement. */
  function EncodeInt8(v: int): (b: byte)
    requires InInt8(v)
    ensures b as int % 0x100 == v % 0x100
  {
    if v < 0 then (v + 0x100) as byte else v as byte
  }

  /** Reading code 'b' back: bytes 0x80..0xFF are negative. */
  function DecodeInt8(b: byte): (v: int)
    ensures InInt8(v)
    ensures v % 0x100 == b as int
  {
    if b < 0x80 then b as int else b as int - 0x100
  }

  /** Every '>i' value survives packing and unpacking. */
  lemma DecodeEncodeInt32(n: int)
    requires InInt32(n)
    ensures DecodeInt32(EncodeInt32(n)) == n
  {
  }

  /** Every four bytes are the packing of the value they unpack to. */
  lemma EncodeDecodeInt32(b: seq<byte>)
    requires |b| == 4
    ensures EncodeInt32(DecodeInt32(b)) == b
  {
  }

  /** Every 'b' value survives packing and unpacking. */
  lemma DecodeEncodeInt8(v: int)
    requires InInt8(v)
    ensures DecodeInt8(EncodeInt8(v)) == v
  {
  }

  /** Every byte is the packing of the value it unpacks to. */
  lemma EncodeDecodeInt8(b: byte)
    ensures EncodeInt8(DecodeInt8(b)) == b
  {
  }
}

=== FILE: compression.dfy ===
/** The compressor both copies of the packet framer call as a black box. */
module Compression {
  import opened Bytes
  import opened Wrappers

  /** A compressor and its decompressor; either may fail (zlib.error).
      helper_functions.py uses the zlib container of RFC 1950; __init__.py
      asks for the raw DEFLATE stream of RFC 1951 (wbits -15), which
      `zlib.compress` accepts from Python 3.11 on and refuses with TypeError
      before that (a compressor that always fails). The model needs neither
      algorithm, only how the two directions relate. */
  datatype Codec = Codec(compress: seq<byte> -> Option<seq<byte>>, decompress: seq<byte> -> Option<seq<byte>>)

  /** Decompressing anything the codec compressed gives the input back. */
  ghost predicate Inverts(c: Codec) {
    forall x :: c.compress(x).Some? ==> c.decompress(c.compress(x).value) == Some(x)
  }
}

=== FILE: frame.dfy ===
/** What both copies of the packet framer share: the header they lay out
    and the ways framing fails. */
module Frame {
  import opened Bytes
  import opened Wrappers
  import Header

  /** Flag byte of a frame whose payload is sent as is. */
  const FLAG_PLAIN: int := 0
  /** Flag byte of a frame whose payload is compressed. */
  const FLAG_COMPRESSED: int := 2

  /** The errors the framers raise, by cause. */
  datatype FrameError =
    | NotBytes            // ValueError: the argument is not a `bytes` object
    | CompressFailed      // the compressor raised
    | LengthOutOfRange    // struct.error: the payload length does not fit '>i'
    | TooShort            // ValueError: fewer than eight bytes
    | HeaderUnpackFailed  // struct.error: `unpack` was given fewer than eight bytes
    | DecompressFailed    // the decompressor raised
    | UnknownFlag(flag: int)  // ValueError: the flag is neither 0 nor 2

  /** The header values for a payload of n bytes. */
  function HeaderFor(n: int, compressed: bool): Header.Fields {
    Header.Fields(n, if compressed then FLAG_COMPRESSED else FLAG_PLAIN, 0, 0, 0)
  }

  /** The wire layout, stated on the bytes themselves: a big-endian length
      equal to the payload's, the flag at offset 4, three zero bytes, then
      the payload unchanged. */
  predicate Laid(frame: seq<byte>, payload: seq<byte>, compressed: bool) {
    && |frame| == Header.SIZE + |payload|
    && DecodeInt32(frame[..4]) == |payload|
    && frame[4] as int == (if compressed then FLAG_COMPRESSED else FLAG_PLAIN)
    && frame[5] == 0 && frame[6] == 0 && frame[7] == 0
    && frame[Header.SIZE..] == payload
  }

  /** `pack('>ibbbb', len(data), flag, 0, 0, 0) + data`. */
  function Assemble(payload: seq<byte>, compressed: bool): (r: Result<seq<byte>, FrameError>)
    ensures r.Success? <==> |payload| < INT32_LIMIT
    ensures r.Failure? ==> r.error == LengthOutOfRange
    ensures r.Success? ==> Laid(r.value, payload, compressed)
  {
    match Header.Pack(HeaderFor(|payload|, compressed))
    case None => Failure(LengthOutOfRange)
    case Some(h) =>
      assert h[..4] == EncodeInt32(|payload|);
      DecodeEncodeInt32(|payload|);
      Success(h + payload)
  }
}

=== FILE: header.dfy ===
/** The frame header as Python's `struct` sees it: format '>ibbbb', five
    values packed into eight bytes. */
module Header {
  import opened Bytes
  import opened Wrappers

  /** Size in bytes of format '>ibbbb'. */
  const SIZE: nat := 8

  /** The five values of '>ibbbb': a length, a flag and three reserved bytes. */
  datatype Fields = Fields(length: int, flag: int, reserved1: int, reserved2: int, reserved3: int)

  /** Whether every value is in range for its code. */
  predicate Packable(h: Fields) {
    InInt32(h.length) && InInt8(h.flag) && InInt8(h.reserved1) && InInt8(h.reserved2) && InInt8(h.reserved3)
  }

  /** `struct.pack('>ibbbb', ...)`; None stands for struct.error (a value out of range). */
  function Pack(h: Fields): (r: Option<seq<byte>>)
    ensures r.Some? <==> Packable(h)
    ensures r.Some? ==> |r.value| == SIZE
  {
    if Packable(h) then
      Some(EncodeInt32(h.length) + [EncodeInt8(h.flag), EncodeInt8(h.reserved1), EncodeInt8(h.reserved2), EncodeInt8(h.reserved3)])
    else None
  }

  /** The values held by exactly eight bytes. */
  function Read(b: seq<byte>): (h: Fields)
    requires |b| == SIZE
    ensures Packable(h)
    ensures h.flag == 2 <==> b[4] == 2
    ensures h.flag == 0 <==> b[4] == 0
  {
    Fields(DecodeInt32(b[..4]), DecodeInt8(b[4]), DecodeInt8(b[5]), DecodeInt8(b[6]), DecodeInt8(b[7]))
  }

  /** `struct.unpack('>ibbbb', b)`; None stands for struct.error, raised
      unless the buffer is exactly eight bytes. */
  function Unpack(b: seq<byte>): (r: Option<Fields>)
    ensures r.Some? <==> |b| == SIZE
  {
    if |b| == SIZE then Some(Read(b)) else None
  }

  /** Unpacking what was packed gives the values back. */
  lemma UnpackPack(h: Fields)
    requires Packable(h)
    ensures Unpack(Pack(h).value) == Some(h)
  {
  }

  /** Packing what was unpacked gives the bytes back. */
  lemma PackUnpack(b: seq<byte>)
    requires |b| == SIZE
    ensures Pack(Unpack(b).value) == Some(b)
  {
    EncodeDecodeInt32(b[..4]);
    EncodeDecodeInt8(b[4]);
    EncodeDecodeInt8(b[5]);
    EncodeDecodeInt8(b[6]);
    EncodeDecodeInt8(b[7]);
    assert b == b[..4] + [b[4], b[5], b[6], b[7]];
  }
}

=== FILE: helper_functions.dfy ===
/** The hardened packet framer of rajant_api/helper_functions.py: `pack_data`
    and `unpack_data`, which check their argument's type, the input length
    and the flag byte, and use the zlib container. */
module HelperFunctions {
  import opened Bytes
  import opened Wrappers
  import opened Frame
  import Header
  import Compression

  /** A Python object handed to the framer: a `bytes` object, or anything else
      (a `str`, a `bytearray`, None, ...). */
  datatype Value = BytesObject(data: seq<byte>) | OtherObject

  /** `pack_data(data, gzip)`. */
  function PackData(c: Compression.Codec, v: Value, gzip: bool): (r: Result<seq<byte>, FrameError>)
    ensures v.OtherObject? ==> r == Failure(NotBytes)
    ensures v.BytesObject? && !gzip ==> (r.Success? <==> |v.data| < INT32_LIMIT)
    ensures v.BytesObject? && gzip ==>
      (r.Success? <==> c.compress(v.data).Some? && |c.compress(v.data).value| < INT32_LIMIT)
    ensures v.BytesObject? && gzip && c.compress(v.data).None? ==> r == Failure(CompressFailed)
    ensures r.Success? && !gzip ==> Laid(r.value, v.data, false)
    ensures r.Success? && gzip ==> Laid(r.value, c.compress(v.data).value, true)
  {
    if v.OtherObject? then Failure(NotBytes)
    else if !gzip then Assemble(v.data, false)
    else
      match c.compress(v.data)
      case None => Failure(CompressFailed)
      case Some(z) => Assemble(z, true)
  }

  /** `unpack_data(packet)`. */
  function UnpackData(c: Compression.Codec, v: Value): (r: Result<seq<byte>, FrameError>)
    ensures v.OtherObject? ==> r == Failure(NotBytes)
    ensures v.BytesObject? && |v.data| < Header.SIZE ==> r == Failure(TooShort)
    ensures v.BytesObject? && |v.data| >= Header.SIZE && v.data[4] != 0 && v.data[4] != 2 ==>
      r == Failure(UnknownFlag(DecodeInt8(v.data[4])))
    ensures v.BytesObject? && |v.data| >= Header.SIZE && v.data[4] == 0 ==> r == Success(v.data[Header.SIZE..])
    ensures v.BytesObject? && |v.data| >= Header.SIZE && v.data[4] == 2 ==>
      r == (match c.decompress(v.data[Header.SIZE..])
            case Some(d) => Success(d)
            case None => Failure(DecompressFailed))
  {
    if v.OtherObject? then Failure(NotBytes)
    else if |v.data| < Header.SIZE then Failure(TooShort)
    else
      // struct.unpack cannot fail on exactly eight bytes
      var h := Header.Read(v.data[..Header.SIZE]);
      var data := v.data[Header.SIZE..];
      if h.flag == FLAG_COMPRESSED then
        match c.decompress(data)
        case None => Failure(DecompressFailed)
        case Some(d) => Success(d)
      else if h.flag != FLAG_PLAIN then Failure(UnknownFlag(h.flag))
      else Success(data)
  }

  /** Every frame `pack_data` builds unpacks to the data it was built from,
      with or without compression. */
  lemma RoundTrip(c: Compression.Codec, data: seq<byte>, gzip: bool)
    requires Compression.Inverts(c)
    requires PackData(c, BytesObject(data), gzip).Success?
    ensures UnpackData(c, BytesObject(PackData(c, BytesObject(data), gzip).value)) == Success(data)
  {
  }

  /** The result depends on the flag byte and the bytes after the header
      alone: the length field and the reserved bytes are never checked. */
  lemma IgnoresLengthAndReserved(c: Compression.Codec, p: seq<byte>, q: seq<byte>)
    requires |p| >= Header.SIZE && |q| >= Header.SIZE
    requires p[4] == q[4] && p[Header.SIZE..] == q[Header.SIZE..]
    ensures UnpackData(c, BytesObject(p)) == UnpackData(c, BytesObject(q))
  {
  }

  /** Unpacking succeeds only on frames of at least eight bytes whose flag is 0 or 2. */
  lemma AcceptedFrames(c: Compression.Codec, v: Value)
    ensures UnpackData(c, v).Success? ==>
      v.BytesObject? && |v.data| >= Header.SIZE && (v.data[4] == 0 || v.data[4] == 2)
  {
  }
}

=== FILE: latin1.dfy ===
/** Python's 'latin1' codec: one byte per code point, code points 0..255 only.
    The login response hashes a string built from the password and the
    device's challenge, so the codec's behaviour on both matters. */
module Latin1 {
  import opened Bytes
  import opened Wrappers

  /** Whether `str.encode('latin1')` can encode s. */
  predicate Encodable(s: string) {
    forall i :: 0 <= i < |s| ==> s[i] as int < 256
  }

  /** `bytes.decode('latin1')`: never fails; byte b becomes code point b. */
  function Decode(b: seq<byte>): (s: string)
    ensures |s| == |b|
    ensures forall i :: 0 <= i < |b| ==> s[i] as int == b[i] as int
    ensures Encodable(s)
  {
    seq(|b|, i requires 0 <= i < |b| => b[i] as int as char)
  }

  /** `str.encode('latin1')`: None stands for UnicodeEncodeError, raised
      when some code point is above 0xFF. */
  function Encode(s: string): (r: Option<seq<byte>>)
    ensures r.Some? <==> Encodable(s)
    ensures r.Some? ==> |r.value| == |s|
    ensures r.Some? ==> forall i :: 0 <= i < |s| ==> r.value[i] as int == s[i] as int
  {
    if Encodable(s) then Some(seq(|s|, i requires 0 <= i < |s| && Encodable(s) => s[i] as int as byte))
    else None
  }

  /** Decoding then encoding gives the bytes back. */
  lemma EncodeDecode(b: seq<byte>)
    ensures Encode(Decode(b)) == Some(b)
  {
    var e := Encode(Decode(b)).value;
    assert forall i :: 0 <= i < |b| ==> e[i] == b[i];
    assert e == b;
  }

  /** Encoding then decoding gives the string back. */
  lemma DecodeEncode(s: string)
    requires Encodable(s)
    ensures Decode(Encode(s).value) == s
  {
  }

  /** Encoding a concatenation encodes the parts, and fails exactly when a part fails. */
  lemma EncodeConcat(a: string, b: string)
    ensures Encodable(a + b) <==> Encodable(a) && Encodable(b)
    ensures Encodable(a + b) ==> Encode(a + b).value == Encode(a).value + Encode(b).value
  {
    if Encodable(a + b) {
      assert forall i :: 0 <= i < |a| ==> (a + b)[i] == a[i];
      assert forall i :: 0 <= i < |b| ==> (a + b)[|a| + i] == b[i];
      var l, r := Encode(a + b).value, Encode(a).value + Encode(b).value;
      assert forall i :: 0 <= i < |l| ==> l[i] == r[i];
    }
  }

  /** The login response input: the password's Latin-1 bytes followed by
      the challenge exactly as received, whatever bytes it holds. */
  lemma PasswordThenChallenge(password: string, challenge: seq<byte>)
    ensures Encode(password + Decode(challenge)).Some? <==> Encodable(password)
    ensures Encodable(password) ==>
      Encode(password + Decode(challenge)) == Some(Encode(password).value + challenge)
  {
    EncodeConcat(password, Decode(challenge));
    EncodeDecode(challenge);
  }
}

=== FILE: legacy_framer.dfy ===
/** The older packet framer of rajant_api/__init__.py, the one the
    `Breadcrumb` session uses: raw DEFLATE (wbits -15), no type or flag
    checks. */
module LegacyFramer {
  import opened Bytes
  import opened Wrappers
  import opened Frame
  import Header
  import Compression
  import HelperFunctions

  /** `pack_data(data, gzip)`; a compressor failure propagates as raised. */
  function PackData(c: Compression.Codec, data: seq<byte>, gzip: bool): (r: Result<seq<byte>, FrameError>)
    ensures !gzip ==> (r.Success? <==> |data| < INT32_LIMIT)
    ensures gzip ==> (r.Success? <==> c.compress(data).Some? && |c.compress(data).value| < INT32_LIMIT)
    ensures gzip && c.compress(data).None? ==> r == Failure(CompressFailed)
    ensures r.Success? && !gzip ==> Laid(r.value, data, false)
    ensures r.Success? && gzip ==> Laid(r.value, c.compress(data).value, true)
  {
    var payload := if gzip then c.compress(data) else Some(data);
    match payload
    case None => Failure(CompressFailed)
    case Some(z) => Assemble(z, gzip)
  }

  /** `unpack_data(packet)`: `unpack` of `packet[:8]` raises on a short
      packet; flag 2 means compressed and every other flag means plain. */
  function UnpackData(c: Compression.Codec, packet: seq<byte>): (r: Result<seq<byte>, FrameError>)
    ensures |packet| < Header.SIZE ==> r == Failure(HeaderUnpackFailed)
    ensures |packet| >= Header.SIZE && packet[4] != 2 ==> r == Success(packet[Header.SIZE..])
    ensures |packet| >= Header.SIZE && packet[4] == 2 ==>
      r == (match c.decompress(packet[Header.SIZE..])
            case Some(d) => Success(d)
            case None => Failure(DecompressFailed))
  {
    var head := if |packet| < Header.SIZE then packet else packet[..Header.SIZE];
    match Header.Unpack(head)
    case None => Failure(HeaderUnpackFailed)
    case Some(h) =>
      var data := packet[Header.SIZE..];
      if h.flag == FLAG_COMPRESSED then
        match c.decompress(data)
        case None => Failure(DecompressFailed)
        case Some(d) => Success(d)
      else Success(data)
  }

  /** The two copies compress differently: the hardened copy `z` with the
      zlib container, this copy `d` with raw DEFLATE. Uncompressed they build
      the same frame from the same `bytes`; compressed, each lays its own
      compressor's output under the same flag and reserved bytes, and the
      frames coincide exactly when the two compressors' outputs do. */
  lemma SameFrames(z: Compression.Codec, d: Compression.Codec, data: seq<byte>, gzip: bool)
    ensures !gzip ==> PackData(d, data, false) == HelperFunctions.PackData(z, HelperFunctions.BytesObject(data), false)
    ensures gzip && PackData(d, data, true).Success? ==>
      Laid(PackData(d, data, true).value, d.compress(data).value, true)
    ensures gzip && HelperFunctions.PackData(z, HelperFunctions.BytesObject(data), true).Success? ==>
      Laid(HelperFunctions.PackData(z, HelperFunctions.BytesObject(data), true).value, z.compress(data).value, true)
    ensures gzip && PackData(d, data, true).Success? && HelperFunctions.PackData(z, HelperFunctions.BytesObject(data), true).Success? ==>
      (PackData(d, data, true) == HelperFunctions.PackData(z, HelperFunctions.BytesObject(data), true)
       <==> d.compress(data) == z.compress(data))
  {
  }

  /** On a frame the hardened copy (codec `z`) accepts, this copy (codec
      `d`) agrees when the flag is 0; when the flag is 2 it runs its own raw
      DEFLATE decompressor, so the results agree whenever the two
      decompressors agree on the payload. */
  lemma AcceptsWhatHardenedAccepts(z: Compression.Codec, d: Compression.Codec, packet: seq<byte>)
    requires HelperFunctions.UnpackData(z, HelperFunctions.BytesObject(packet)).Success?
    ensures packet[4] == 0 ==> UnpackData(d, packet) == HelperFunctions.UnpackData(z, HelperFunctions.BytesObject(packet))
    ensures packet[4] == 2 ==>
      UnpackData(d, packet) == (match d.decompress(packet[Header.SIZE..])
                                case Some(x) => Success(x)
                                case None => Failure(DecompressFailed))
    ensures d.decompress(packet[Header.SIZE..]) == z.decompress(packet[Header.SIZE..]) ==>
      UnpackData(d, packet) == HelperFunctions.UnpackData(z, HelperFunctions.BytesObject(packet))
  {
  }

  /** The two copies differ on flags other than 0 and 2, which this copy
      reads as plain and the hardened copy rejects, whatever the codecs. */
  lemma UnknownFlagsPassThrough(z: Compression.Codec, d: Compression.Codec, packet: seq<byte>)
    requires |packet| >= Header.SIZE && packet[4] != 0 && packet[4] != 2
    ensures UnpackData(d, packet) == Success(packet[Header.SIZE..])
    ensures HelperFunctions.UnpackData(z, HelperFunctions.BytesObject(packet)).Failure?
  {
  }

  /** Every frame `pack_data` builds unpacks to the data it was built from. */
  lemma RoundTrip(c: Compression.Codec, data: seq<byte>, gzip: bool)
    requires Compression.Inverts(c)
    requires PackData(c, data, gzip).Success?
    ensures UnpackData(c, PackData(c, data, gzip).value) == Success(data)
  {
  }
}

=== FILE: message.dfy ===
/** The parts of the protocol message `BCMessage` that the session reads or
    writes. The schema behind it is external; every other field is left out,
    and unset fields read as protobuf defaults (0, "", empty). */
module Message {
  import opened Bytes
  import opened Wrappers

  /** The `auth` sub-message. */
  datatype Auth = Auth(
    action: int,
    role: int,
    serial: string,
    challengeOrResponse: seq<byte>,
    compressionMask: int)

  /** The `authResult` sub-message. */
  datatype AuthResult = AuthResult(status: int)

  /** The device's state snapshot, opaque to the client. */
  datatype State = State(encoded: seq<byte>)

  /** A `BCMessage`; `state` is None while the field is unset. */
  datatype BCMessage = BCMessage(
    sequenceNumber: int,
    auth: Auth,
    authResult: AuthResult,
    state: Option<State>,
    stateFilterPath: seq<string>)

  /** A freshly constructed `BCMessage()`: every field at its default. */
  const Blank: BCMessage := BCMessage(0, Auth(0, 0, "", [], 0), AuthResult(0), None, [])

  /** A `State` with no fields set. */
  const EmptyState: State := State([])

  /** Reading `message.state`: protobuf yields an empty `State` when the field is unset. */
  function StateOf(m: BCMessage): (st: State)
    ensures m.state.Some? ==> st == m.state.value
    ensures m.state.None? ==> st == EmptyState
  {
    m.state.GetOr(EmptyState)
  }
}

=== FILE: session_run.dfy ===
/** Properties of whole sessions: any sequence of public calls on a
    `Breadcrumb`, and the handshake scripted end to end. */
module SessionRun {
  import opened Wrappers
  import opened Bytes
  import opened Message
  import opened Breadcrumb
  import Latin1

  /** A public method call, with the reachability answer it gets. */
  datatype Call =
    | Login(reachable: bool)                              // authenticate()
    | FetchState(reachable: bool)                         // get_state()
    | FetchFilteredAsWritten(reachable: bool, arg: FilterArg)  // get_state_filter(filters) as written
    | FetchFiltered(reachable: bool, filters: seq<string>)  // get_state_filter(filters) with the list as the path
    | Send(message: BCMessage, gzip: bool)                // send_message(message, gzip)
    | Receive                                             // get_message()
    | Reconnect                                           // setup_connection_socket()

  /** A session together with the peer it talks to. */
  datatype World = World(session: Session, peer: Peer)

  /** What holds of every session reachable from construction: an
      authenticated session has recorded the device's serial. */
  predicate Invariant(s: Session) {
    s.authenticated ==> s.serial.Some?
  }

  /** One call. */
  function Step(env: Env, w: World, c: Call): (w': World)
    ensures Tracks(w.session, w.peer, w'.session, w'.peer)
    ensures w.session.authenticated ==> w'.session.authenticated
    ensures SameSettings(w.session, w'.session)
    ensures Invariant(w.session) ==> Invariant(w'.session)
  {
    match c
    case Login(r) =>
      var o := Authenticate(env, w.session, w.peer, r);
      World(o.session, o.peer)
    case FetchState(r) =>
      var o := GetState(env, w.session, w.peer, r);
      World(o.session, o.peer)
    case FetchFilteredAsWritten(r, arg) =>
      var o := GetStateFilter(env, w.session, w.peer, r, arg);
      World(o.session, o.peer)
    case FetchFiltered(r, filters) =>
      var o := GetStateFiltered(env, w.session, w.peer, r, filters);
      World(o.session, o.peer)
    case Send(m, gzip) =>
      var o := SendMessage(env, w.session, w.peer, m, gzip);
      World(o.session, o.peer)
    case Receive =>
      var o := GetMessage(env, w.session, w.peer);
      World(o.session, o.peer)
    case Reconnect =>
      var o := SetupConnection(w.session, w.peer);
      World(o.session, o.peer)
  }

  /** The calls one after another. */
  function Run(env: Env, w: World, calls: seq<Call>): World
    decreases |calls|
  {
    if |calls| == 0 then w else Run(env, Step(env, w, calls[0]), calls[1..])
  }

  /** Over any run the log only grows and the counter grows by exactly the
      number of frames written and messages read: it never decreases and is
      never reset. */
  lemma {:induction false} RunTracks(env: Env, w: World, calls: seq<Call>)
    ensures Tracks(w.session, w.peer, Run(env, w, calls).session, Run(env, w, calls).peer)
    decreases |calls|
  {
    if |calls| > 0 {
      var w1 := Step(env, w, calls[0]);
      RunTracks(env, w1, calls[1..]);
      var end := Run(env, w1, calls[1..]).peer.log;
      assert end[..|w.peer.log|] == end[..|w1.peer.log|][..|w.peer.log|];
    }
  }

  /** Once authenticated, always authenticated: no call clears the flag. */
  lemma {:induction false} RunKeepsAuthenticated(env: Env, w: World, calls: seq<Call>)
    requires w.session.authenticated
    ensures Run(env, w, calls).session.authenticated
    decreases |calls|
  {
    if |calls| > 0 {
      RunKeepsAuthenticated(env, Step(env, w, calls[0]), calls[1..]);
    }
  }

  /** Host, port, role and password are the ones given at construction. */
  lemma {:induction false} RunKeepsSettings(env: Env, w: World, calls: seq<Call>)
    ensures SameSettings(w.session, Run(env, w, calls).session)
    decreases |calls|
  {
    if |calls| > 0 {
      RunKeepsSettings(env, Step(env, w, calls[0]), calls[1..]);
    }
  }

  /** Every run keeps the invariant. */
  lemma {:induction false} RunKeepsInvariant(env: Env, w: World, calls: seq<Call>)
    requires Invariant(w.session)
    ensures Invariant(Run(env, w, calls).session)
    decreases |calls|
  {
    if |calls| > 0 {
      RunKeepsInvariant(env, Step(env, w, calls[0]), calls[1..]);
    }
  }

  /** Whether the log holds, at or after position `from`, a result message
      whose status names SUCCESS. */
  predicate SawSuccess(env: Env, log: seq<Exchange>, from: nat) {
    exists k :: from <= k < |log| && log[k].Read? && StatusSucceeds(env, log[k].message)
  }

  /** A session becomes authenticated only by reading a SUCCESS result from
      its peer during the run. */
  lemma {:induction false} AuthenticatedOnlyAfterSuccess(env: Env, w: World, calls: seq<Call>)
    ensures Run(env, w, calls).session.authenticated ==>
      w.session.authenticated || SawSuccess(env, Run(env, w, calls).peer.log, |w.peer.log|)
    decreases |calls|
  {
    if |calls| > 0 {
      var w1 := Step(env, w, calls[0]);
      var end := Run(env, w1, calls[1..]);
      AuthenticatedOnlyAfterSuccess(env, w1, calls[1..]);
      RunTracks(env, w1, calls[1..]);
      if end.session.authenticated && !w.session.authenticated {
        if w1.session.authenticated {
          // only a handshake raises the flag, and its third exchange is the witness
          var k := |w.peer.log| + 2;
          assert calls[0].Login?;
          assert w1.peer.log[k].Read? && StatusSucceeds(env, w1.peer.log[k].message);
          assert end.peer.log[k] == end.peer.log[..|w1.peer.log|][k] == w1.peer.log[k];
        } else {
          var k :| |w1.peer.log| <= k < |end.peer.log| && end.peer.log[k].Read? && StatusSucceeds(env, end.peer.log[k].message);
          assert |w.peer.log| <= k;
        }
      }
    }
  }

  /** A freshly constructed session is inert and satisfies the invariant,
      and every run from it keeps the settings it was given. */
  lemma InitSatisfiesInvariant(env: Env, host: Option<string>, port: Option<int>, role: Option<string>, password: Option<string>, p: Peer, calls: seq<Call>)
    ensures Invariant(Init(host, port, role, password))
    ensures !Init(host, port, role, password).authenticated && Init(host, port, role, password).counter == 0
    ensures !Init(host, port, role, password).linked
    ensures var end := Run(env, World(Init(host, port, role, password), p), calls).session;
      end.host == host && end.port == port && end.role == role && end.password == password && Invariant(end)
  {
    var w := World(Init(host, port, role, password), p);
    RunKeepsSettings(env, w, calls);
    RunKeepsInvariant(env, w, calls);
  }

  /** The login request a session with counter `counter` must send to answer
      `challenge`: action LOGIN, the role's code, SHA-384 over the password's
      Latin-1 bytes followed by the challenge, compression bit 2. */
  function ExpectedLogin(env: Env, roleName: string, password: string, challenge: seq<byte>, counter: nat): BCMessage
    requires LOGIN in env.actions && roleName in env.roles && Latin1.Encodable(password)
  {
    Blank.(
      sequenceNumber := counter,
      auth := Auth(env.actions[LOGIN], env.roles[roleName], "", env.sha384(Latin1.Encode(password).value + challenge), COMPRESSION_MASK))
  }

  /** The handshake against a scripted peer that accepts the connection,
      sends `challenge`, takes the login frame and answers with `result`,
      from a fresh session. */
  lemma FreshHandshake(env: Env, host: string, port: int, roleName: string, password: string, p: Peer, challenge: BCMessage, result: BCMessage)
    requires LOGIN in env.actions && roleName in env.roles && Latin1.Encodable(password)
    requires p.log == [] && |p.connects| > 0 && p.connects[0] && |p.sends| > 0 && p.sends[0]
    requires |p.receives| >= 2 && p.receives[0].Some? && p.receives[1].Some?
    requires DecodeFrame(env, p.receives[0].value) == Success(challenge)
    requires DecodeFrame(env, p.receives[1].value) == Success(result)
    requires FrameOf(env, ExpectedLogin(env, roleName, password, challenge.auth.challengeOrResponse, 1), false).Success?
    ensures var o := Authenticate(env, Init(Some(host), Some(port), Some(roleName), Some(password)), p, true);
      && (o.value <==> StatusSucceeds(env, result))
      && o.session.authenticated == o.value
      && o.session.serial == Some(challenge.auth.serial)
      && o.session.counter == 3
      && o.session.linked
      && o.peer.log == [
           Read(challenge),
           Wrote(FrameOf(env, ExpectedLogin(env, roleName, password, challenge.auth.challengeOrResponse, 1), false).value),
           Read(result)]
  {
  }

  /** After a successful handshake a second `authenticate()` whose TCP
      connect fails still reports true: the flag outlives the connection, and
      `get_state()` then fails without touching the wire. */
  lemma StaleFlag(env: Env, s: Session, p: Peer)
    requires s.authenticated
    requires |p.connects| > 0 && !p.connects[0]
    ensures var o := Authenticate(env, s, p, true);
      && o.value && o.session.authenticated && !o.session.linked
      && GetState(env, o.session, o.peer, true).value.None?
      && GetState(env, o.session, o.peer, true).peer.log == p.log
  {
  }

  /** The error policies differ, the wire traffic does not: with an empty
      filter list `get_state()` and the corrected filter query send the same
      request and read the same reply, but only `get_state()` turns a failure
      into `False`. The filter query as written sends nothing for an empty
      list: it raises TypeError. */
  lemma QueryPolicies(env: Env, s: Session, p: Peer, reachable: bool)
    ensures reachable && s.authenticated ==>
      GetStateFilter(env, s, p, reachable, Items([])) == Outcome(s, p, Failure(TypeError))
    ensures GetState(env, s, p, reachable).session == GetStateFiltered(env, s, p, reachable, []).session
    ensures GetState(env, s, p, reachable).peer == GetStateFiltered(env, s, p, reachable, []).peer
    ensures forall st :: GetState(env, s, p, reachable).value == Some(st) <==>
      GetStateFiltered(env, s, p, reachable, []).value == Success(Some(st))
    ensures GetStateFiltered(env, s, p, reachable, []).value.Failure? ==> GetState(env, s, p, reachable).value.None?
  {
  }

  /** `get_state_filter` as written refuses every list of filters, even one
      the corrected version sends: with a connected, authenticated session
      and a peer that would answer, the list raises TypeError and nothing is
      sent, where the corrected call completes the exchange. */
  lemma FilterListRefused(env: Env, s: Session, p: Peer, filters: seq<string>)
    requires s.authenticated && s.linked
    requires |p.sends| > 0 && p.sends[0] && |p.receives| > 0 && p.receives[0].Some?
    requires FrameOf(env, StateRequest(s, filters), false).Success?
    requires DecodeFrame(env, p.receives[0].value).Success?
    ensures GetStateFilter(env, s, p, true, Items(filters)) == Outcome(s, p, Failure(TypeError))
    ensures GetStateFiltered(env, s, p, true, filters).value.Success?
    ensures GetStateFiltered(env, s, p, true, filters).value.value.Some?
  {
  }
}

=== FILE: wrappers.dfy ===
/** Failure-carrying values used throughout the model in place of Python's
    `None` returns and raised exceptions. */
module Wrappers {

  /** A value that may be absent. */
  datatype Option<+T> = None | Some(value: T) {

    /** The value, or `default` when absent. */
    function GetOr(default: T): T {
      match this
      case Some(v) => v
      case None => default
    }
  }

  /** Either a value or the error that was raised instead of producing it. */
  datatype Result<+T, +E> = Success(value: T) | Failure(error: E)
}
